=== FILE: README.md ===
# Modifier bookkeeping and contour preparation, modelled in Dafny

This project models two pieces of bookkeeping in a 3D solid-modelling editor.

**The modifier layer** (`ModifierManager`) sits in front of the geometry
database. Each item has a *version name*, which changes on every replace, and a
*logical name*, which is the version name the item had when first added. The
manager keeps two maps:

- `version2name`: current version → logical name;
- `modifiers`: logical name → modifier list.

A modifier list (`ModifierList`) holds `last`, the committed derived
(symmetrized) solid, and `temp`, the live preview. `Update` adds the derived
solid the first time and replaces it after that. It also links base and
derived in both directions. `Tempf` hides the base, publishes a new preview and
cancels the previous one. Each manager method is a pure state transition; an
`await` is an ordinary step.

**Contour preparation** (`ContourFillet`) turns a curve into something the
fillet kernel accepts:

- `Prepare` dispatches on the curve type.
- `Calculate` turns a polyline into segments between consecutive points. It
  adds a closing segment when the polyline is closed, and joins the segments
  unless there is only one.
- `SetContour` is the `contour` setter. It resets the radius array to zeros,
  with one slot per fillable corner.
- `CornerAngles` enumerates the corners and selects from them.

Files:

- `results.dfy` — `Option`, `Result`, and `Outcome`. An `Outcome` keeps the
  state reached even when an operation throws part-way.
- `geometry_store.dfy` — the abstract geometry database (see below).
- `modifier_manager.dfy` — `ModifierList.update`/`tempf` and the manager's
  entry points.
- `modifier_invariants.dfy` — the manager invariant, its preservation,
  replace chains, preview runs and runs of arbitrary commands.
- `contour_fillet.dfy` — `prepare`, the `contour` setter, `cornerAngles` and
  `Polyline2ContourFactory.calculate`.

## The geometry database

`GeometryDatabase` is not part of this model. `GeometryStore` stands in for it
with the behaviour the modifier layer relies on:

- names come from a counter and are never reused;
- a replace retires the old name and issues a fresh one; the item is
  assumed to keep its agent (see "## Left out");
- a replace, removal, duplicate or lookup of a retired name fails with
  `StaleReference`; previews, hide and unhide do not check the name, so a
  preview over a retired derived solid is still published;
- temporary objects are kept in a sequence, start invisible, and are shown
  and cancelled explicitly;
- the `bemodify`/`premodify` links are the two maps `baseOf` (derived → base)
  and `derivedOf` (base → derived).

Kernel results are symbolic. `Shape(id)` is any item a command produced, and
`Symmetrized(base)` is the result of the symmetry factory.

## What the model shows about the source

The intended rule is that the version map always matches the database's set of
live versions. As written, that holds only up to the cases below, and the model
follows the code.

- **Derived solids are not registered.** `update` adds and replaces the
  derived solid directly on the database (ModifierManager.ts:33-35). So the
  registered versions are *not* all live items. They are the live items that
  are not derived solids: `RegisteredVersionsAfterRun`.
- **`add` can orphan a derived solid.** A second `add` for a logical name that
  already has a list drops the old list. The old derived solid stays live, but
  nothing refers to it any more: `AddAgainOrphansDerived`.
- **A failed recomputation leaves a stale registration.** The user may delete
  the derived solid. A later `replaceItem` of the base then throws inside
  `update`, after the database has already replaced the base. The dead version
  stays registered and the new one is not: `ReplaceItemThrowLeavesStaleKey`.
  The four calls add item 0, attach a list to it (derived solid 1), delete 1,
  and replace 0. Run from an empty manager, they end in exactly this broken
  state: `RemovedDerivedThenReplaceBreaksRun`. Deleting the derived solid alone
  keeps the manager well formed; the replace that follows breaks it. The
  manager invariant holds after every run that does not stop at such a replace.
  It also holds, with no replace ever stopping, if the run starts from an empty
  manager, or from any state whose derived solids are all live, and never
  deletes a derived solid and never attaches a second list over a live one; a second
  list over a live one breaks tracking, not the invariant (`RunPreserves`).
- **A stale removal is never reported.** `removeItem` does not await the
  database's removal (ModifierManager.ts:119), so a removal of a retired
  version does not throw: the version is forgotten and the call returns.
- **An open contour with no segments throws.** It asks for an array of length
  -1, which throws a range error after `_contour` has been assigned:
  `SetContour`, `StoreContour`.
- **A selection may contain absent corners.** When a selected control point
  has no corner, `allCorners.get(i)!` yields `undefined`, so the result is a
  sequence of `Option` (`CornerAngles`).
- **The closing corner of an empty closed contour is out of range.** It
  carries index -1, so `OneRadiusPerCorner` requires at least one segment.

## Model

| member | source | states |
|---|---|---|
| ModifierManager.Update | src/editor/ModifierManager.ts:24-42 | the first call adds the derived solid as an automatic item and later calls replace it (the item count stays the same); the call fails exactly when the previous derived solid is no longer live; afterwards `last` is a fresh live item holding the symmetrized base, linked both ways to the base view |
| ModifierManager.Tempf | src/editor/ModifierManager.ts:44-63 | the base is hidden; a new preview of the symmetrized base is published, visible and uncancelled; the previous preview is cancelled and hidden; no other temporary object or live item changes; the list's `temp` becomes the new handle |
| ModifierManager.Add | src/editor/ModifierManager.ts:76-83 | a fresh list replaces any list under the solid's logical name; its first update adds one new automatic item, the symmetrized solid, linked both ways to the solid; temporary objects, the hidden set and `version2name` are unchanged |
| ModifierManager.AddItem | src/editor/ModifierManager.ts:88-92 | the new item is stored under a fresh version that maps to itself as its logical name; in a well-formed manager that name was unregistered and has no modifier list; every other entry of `version2name` and the modifier registry are unchanged |
| ModifierManager.Duplicate | src/editor/ModifierManager.ts:126-131 | a copy of a live item gets a fresh version that maps to itself; in a well-formed manager that name was unregistered and has no modifier list, so the copy inherits none; a stale item fails with no change |
| ModifierManager.ReplaceItem | src/editor/ModifierManager.ts:98-114 | the old version key is removed and the fresh new version maps to the same logical name, so the map keeps its size; with no list under that name only the store replace happens; with a list, the old derived solid is replaced (or a first one added) by one recomputed from the new model and linked to the new view; afterwards `from` is retired, the new version is live, and no other item, temporary object or hidden flag changes; if recomputation throws, the store replace has happened and `version2name` is unchanged |
| ModifierManager.RemoveItem | src/editor/ModifierManager.ts:116-121 | never fails: a live item is removed from the store, a retired one leaves the store as it was; either way only its key is dropped from `version2name` and the modifier registry is untouched |
| ModifierManager.ReplaceTemporaryItem | src/editor/ModifierManager.ts:141-154 | the preview is symmetrized if and only if the logical name has a modifier list; in that case the call is exactly the list's `tempf` (base hidden, old preview cancelled, new one shown and held by the list); otherwise it is exactly the store's replacing preview and the registry is unchanged |
| ModifierManager.Lookup | src/editor/ModifierManager.ts:161-163 | succeeds exactly for live items and returns their stored model |
| ModifierManager.AddTemporaryItem | src/editor/ModifierManager.ts:137-139 | delegates to the store: the manager is unchanged except that one invisible, uncancelled preview is appended, and its handle is returned |
| ModifierManager.AddPhantom | src/editor/ModifierManager.ts:133-135 | delegates to the store: the manager is unchanged except that one invisible, uncancelled phantom is appended, and its handle is returned |
| ModifierManager.Hide | src/editor/ModifierManager.ts:172-174 | the manager is unchanged except that the store's hidden set gains the item |
| ModifierManager.Unhide | src/editor/ModifierManager.ts:176-178 | the manager is unchanged except that the store's hidden set loses the item |
| ModifierInvariants.AddItemPreserves | src/editor/ModifierManager.ts:88-91 | `addItem` preserves the manager invariant and leaves every live item tracked |
| ModifierInvariants.DuplicatePreserves | src/editor/ModifierManager.ts:126-130 | `duplicate` preserves the manager invariant and tracking |
| ModifierInvariants.RemoveItemPreserves | src/editor/ModifierManager.ts:116-121 | `removeItem`, of a live or a retired item, preserves the manager invariant and tracking |
| ModifierInvariants.ReplaceItemPreserves | src/editor/ModifierManager.ts:98-114 | a `replaceItem` that returns preserves the manager invariant and tracking |
| ModifierInvariants.ReplaceItemWithListPreserves | src/editor/ModifierManager.ts:102-111 | the same, for the branch that recomputes a derived solid |
| ModifierInvariants.ReplaceItemWithoutListPreserves | src/editor/ModifierManager.ts:99-113 | the same, for the branch with no modifier list, where only the store replace and the re-keying happen |
| ModifierInvariants.ReplaceItemReturnsWhileDerivedLive | src/editor/ModifierManager.ts:102-106 | while every derived solid is live, `replaceItem` never throws |
| ModifierInvariants.ReplaceItemKeepsDerivedLive | src/editor/ModifierManager.ts:98-114 | a replace in that situation returns, and every derived solid is still live afterwards |
| ModifierInvariants.AddKeepsDerivedLive | src/editor/ModifierManager.ts:76-82 | `add` keeps every derived solid live |
| ModifierInvariants.PreviewKeepsDerivedLive | src/editor/ModifierManager.ts:141-153 | previews keep every derived solid live |
| ModifierInvariants.ReplaceTemporaryItemPreserves | src/editor/ModifierManager.ts:141-153 | previews preserve the manager invariant and tracking |
| ModifierInvariants.AddPreserves | src/editor/ModifierManager.ts:76-82 | `add` preserves the manager invariant; it preserves tracking when the name had no live derived solid |
| ModifierInvariants.AddAgainOrphansDerived | src/editor/ModifierManager.ts:76-82 | a second `add` over a live derived solid leaves that solid live, unregistered and referenced by no list |
| ModifierInvariants.ReplaceItemThrowLeavesStaleKey | src/editor/ModifierManager.ts:102-111 | when `replaceItem` throws, the old version stays registered although it is no longer live, which breaks the manager invariant |
| ModifierInvariants.LogicalNameSurvivesReplaces | src/editor/ModifierManager.ts:99-111 | after any chain of replaces, the current version still maps to the original logical name; the map keeps its size and no modifier list appears or vanishes |
| ModifierInvariants.OnlyNewestPreviewLive | src/editor/ModifierManager.ts:55-61 | after any run of previews through one list, only the newest preview is visible and uncancelled; every earlier one, and the one from before the run, is cancelled and hidden |
| ModifierInvariants.PreviewRunKeepsCancelled | src/editor/ModifierManager.ts:58-61 | a cancelled preview stays cancelled and hidden through later previews |
| ModifierInvariants.Step | src/editor/ModifierManager.ts:76-153 | one entry-point call; a call that throws leaves the manager unchanged, except `replaceItem`, which leaves the state it had reached; only `duplicate` and `replaceItem` can throw; `removeItem` always returns |
| ModifierInvariants.StepPreserves | src/editor/ModifierManager.ts:76-153 | a call that returns preserves the manager invariant, and tracking unless it is a second `add` over a live derived solid; unless it deletes a derived solid, it keeps every derived solid live, and then a `replaceItem` does not throw |
| ModifierInvariants.RunPreserves | src/editor/ModifierManager.ts:76-153 | a run of entry-point calls, stopping at the first throw with the state that call left, preserves the manager invariant unless it stopped at a `replaceItem` that threw; a run from a state whose derived solids are live that neither deletes a derived solid nor attaches a second list over a live one never stops that way, keeps the invariant and the derived solids live, and keeps every live item tracked |
| ModifierInvariants.RegisteredVersionsAfterRun | src/editor/ModifierManager.ts:67-68 | from an empty manager, after such a run, no `replaceItem` has thrown and the keys of `version2name` are exactly the live items minus the derived solids |
| ModifierInvariants.RemovedDerivedThenReplaceBreaksRun | src/editor/ModifierManager.ts:98-121 | adding item 0, attaching a list, deleting its derived solid 1 and replacing 0 stops at the replace with a stale-reference error; version 0 stays registered but is dead, version 2 is live but unregistered, and the invariant is broken |
| ContourFillet.BuildSegments | src/commands/curve/ContourFilletFactory.ts:146-163 | for n points there are n-1 segments, segment k running from point k to point k+1; a closed polyline gets one more segment from the last point back to the first; consecutive segments meet end to start |
| ContourFillet.Calculate | src/commands/curve/ContourFilletFactory.ts:139-171 | fails with "invalid precondition" exactly when there are fewer than 2 points; otherwise the pieces are the polyline's chain in order, returned as a lone segment exactly when there are two points and the polyline is open, and joined otherwise |
| ContourFillet.Prepare | src/commands/curve/ContourFilletFactory.ts:35-52 | a contour is returned unchanged, an arc is wrapped as a contour, a polyline is converted (failing with fewer than 2 points) and any other type fails with "invalid precondition" naming the type |
| ContourFillet.StoreContour | src/commands/curve/ContourFilletFactory.ts:65-70 | the contour is stored; the radius array becomes all zeros with one slot per fillable corner (segment count for a closed contour, one fewer for an open one); a negative length throws a range error with the contour already stored |
| ContourFillet.SetContour | src/commands/curve/ContourFilletFactory.ts:56-71 | an instance whose curve is not a contour throws "Contour expected" with no change; a view is looked up, set as an instance and only then recorded as the original item; on success the radius array is all zeros, sized from the segment count and the closed flag |
| ContourFillet.InteriorCorners | src/commands/curve/ContourFilletFactory.ts:84-89 | interior corners get keys 1..segmentCount-1 in ascending order; key i carries index i-1; corners whose angle query fails are skipped and all others are present |
| ContourFillet.AllCorners | src/commands/curve/ContourFilletFactory.ts:81-95 | the corner map holds exactly the corners whose query succeeds: interior ones, then key 0 carrying index segmentCount-1 for a closed contour; it is listed in insertion order |
| ContourFillet.Find | src/commands/curve/ContourFilletFactory.ts:101 | `Map.get`: returns the value of the first entry stored under the key, or nothing when the key is absent |
| ContourFillet.FindAgreesWithCornerAt | src/commands/curve/ContourFilletFactory.ts:99-103 | looking a corner key up in the corner map gives that key's corner, or nothing when it has none |
| ContourFillet.CornerAngles | src/commands/curve/ContourFilletFactory.ts:78-107 | with a selection, there is exactly one entry per control point, in selection order, and it is that point's corner or absent; with no selection, every corner whose query succeeds appears once, in ascending index order |
| ContourFillet.ListCorners | src/commands/curve/ContourFilletFactory.ts:104-106 | with no selection, the result is the corner map's values, one per entry, in insertion order |
| ContourFillet.SelectCorners | src/commands/curve/ContourFilletFactory.ts:97-103 | with a selection, the result has one entry per control point, in selection order, and each is that point's corner or absent |
| ContourFillet.ListedCornersAreTheCorners | src/commands/curve/ContourFilletFactory.ts:104-106 | listing the corner map's values gives every corner exactly once, each a real corner, in ascending index order |
| ContourFillet.OneRadiusPerCorner | src/commands/curve/ContourFilletFactory.ts:67-70 | for a contour with at least one segment, corner keys and radius slots correspond one to one: each corner's index addresses a radius slot, and each slot maps back to its corner |

## Left out

- The geometric kernel: symmetry (`SymmetryFactory.calculate`), fillets (`CreateContourFillets`), line construction, curve joining and corner-angle queries are symbolic terms or the parameter `angleAt`. Their geometry is not visible here.
- `ContourFilletFactory.calculate`: it only passes the contour and unit-scaled radii to the fillet kernel.
- The symmetry origin and orientation, `info2info`'s vector conversions and `unit` scaling: these are floating-point Three.js values. Points are triples of reals, and converted corner data is kept as the kernel gave it.
- Promises and concurrency: each async method is one sequential transition. `console.time` is logging only.
- `lookupTopologyItem`: faces and edges are not modelled.
- Material overrides of `addPhantom`: a phantom is a temporary object of kind `Phantom`.
- The `controlPoints` setter and the `originalItem` accessors: they are plain field stores. `SetContour` records the original item, and `CornerAngles` takes the control-point selection as a parameter.
- `Calculate` takes the polyline after the database lookup and kernel cast, which are pass-throughs.
- ModifierManager.ReplaceItem, ModifierManager.Add, ModifierManager.ReplaceTemporaryItem: the non-null assertions `version2name.get(...)!` are read as the precondition that the version is registered. The manager invariant `Wf` is also required, so that a registered version is live. When a version is unregistered, the source goes on with an `undefined` logical name; that path is not modelled.
- SymmetryFactory failures: the symmetry computation is assumed to succeed.
- GeometryStore.ReplaceItem: a replace is assumed to keep the item's agent. The `replaceItem` overloads (ModifierManager.ts:94-97) take an optional agent and `update`'s replace (ModifierManager.ts:34) passes none, so what the database records then is not visible here. This fixes the agent of a recomputed derived solid in `Update`'s contract.
- ModifierInvariants.RunPreserves: the manager invariant is not promised for a run that stops at a `replaceItem` that threw, because the source leaves that state broken (`RemovedDerivedThenReplaceBreaksRun`). Tracking is promised only for runs that start with every derived solid live and neither delete a derived solid nor attach a second list over a live one.
- ModifierInvariants.RegisteredVersionsAfterRun: promised only for runs that neither delete a derived solid nor attach a second list over a live one.

=== FILE: contour_fillet.dfy ===
/** Preparing curves for filleting.

    The fillet kernel works on contours only, so a polyline is first turned
    into line segments joined in order, and an arc is wrapped as a one-curve
    contour. The contour factory sizes its radius array from the contour and
    enumerates the corner angles of the contour.

    Kernel geometry stays abstract: a contour is its identity, segment count
    and closed flag; a `Segment` is the line the line factory builds between
    two points; `Joined` stands for what joining segments in order produces;
    the corner-angle query is the parameter `angleAt`, which may fail. */
module ContourFillet {
  import opened Results
  import GeometryStore

  type Name = GeometryStore.Name

  datatype Point = Point(x: real, y: real, z: real)

  datatype Polyline = Polyline(points: seq<Point>, closed: bool)

  datatype Contour = Contour(id: nat, segmentCount: nat, closed: bool)

  datatype Arc = Arc(id: nat)

  /** The space curve of an instance, by kernel type; `typeName` is the
      kernel's name for any other type. */
  datatype Curve =
    | PolylineCurve(polyline: Polyline)
    | ContourCurve(contour: Contour)
    | ArcCurve(arc: Arc)
    | OtherCurve(typeName: string)

  datatype SpaceInstance = SpaceInstance(curve: Curve)

  datatype Segment = Segment(p1: Point, p2: Point)

  /** A converted polyline: a lone segment, or the segments joined in order. */
  datatype Converted = LoneSegment(segment: Segment) | Joined(segments: seq<Segment>)

  /** What `prepare` hands to the fillet kernel. */
  datatype Prepared =
    | Unchanged(inst: SpaceInstance)
    | FromPolyline(converted: Converted)
    | ArcContour(arc: Arc)

  /** `InvalidPrecondition` is the plain "invalid precondition" error, with the
      type name when it reports an unsupported curve; `ContourExpected` is the
      validation error; `InvalidArrayLength` is the range error a negative
      array length raises; `NotFound` is a failed database lookup. */
  datatype FactoryError =
    | InvalidPrecondition(unsupported: Option<string>)
    | ContourExpected
    | InvalidArrayLength
    | NotFound(view: Name)

  // ---------------------------------------------------------------------------
  // Polyline to contour

  /** The segments of a polyline: one between each pair of consecutive
      points, and one from the last point back to the first when closed. */
  function Chain(p: Polyline): (r: seq<Segment>)
    requires |p.points| >= 2
  {
    seq(|p.points| - 1, k requires 0 <= k < |p.points| - 1 => Segment(p.points[k], p.points[k + 1]))
    + (if p.closed then [Segment(p.points[|p.points| - 1], p.points[0])] else [])
  }

  function Pieces(c: Converted): seq<Segment> {
    match c
    case LoneSegment(s) => [s]
    case Joined(segments) => segments
  }

  /** The segment loop: walks the points pairwise, then closes the loop. */
  method BuildSegments(points: seq<Point>, closed: bool) returns (segments: seq<Segment>)
    requires |points| >= 2
    ensures |segments| == |points| - 1 + (if closed then 1 else 0)
    ensures forall k :: 0 <= k < |points| - 1 ==> segments[k] == Segment(points[k], points[k + 1])
    ensures closed ==> segments[|points| - 1] == Segment(points[|points| - 1], points[0])
    ensures forall k :: 0 <= k < |segments| - 1 ==> segments[k].p2 == segments[k + 1].p1
    ensures closed ==> segments[|segments| - 1].p2 == segments[0].p1
  {
    var prev := points[0];
    var start := prev;
    var rest := points[1..];
    segments := [];
    var i := 0;
    while i < |rest|
      invariant 0 <= i <= |rest|
      invariant |segments| == i
      invariant prev == points[i]
      invariant forall k :: 0 <= k < i ==> segments[k] == Segment(points[k], points[k + 1])
    {
      var curr := rest[i];
      segments := segments + [Segment(prev, curr)];
      prev := curr;
      i := i + 1;
    }
    ghost var open := segments;
    assert |open| == |points| - 1 && prev == points[|points| - 1] && start == points[0];
    assert 0 < |open| && open[0] == Segment(points[0], points[1]);
    if closed {
      segments := segments + [Segment(prev, start)];
      assert segments[0] == open[0];
    }
    forall k | 0 <= k < |segments| - 1 ensures segments[k].p2 == segments[k + 1].p1 {
      assert segments[k] == open[k] == Segment(points[k], points[k + 1]);
      if k + 1 < |open| {
        assert segments[k + 1] == open[k + 1] == Segment(points[k + 1], points[k + 2]);
      } else {
        assert segments[k + 1] == Segment(prev, start);
      }
    }
  }

  /** Converts a polyline to segments; fewer than two points is an error, and
      a single segment is returned as it is rather than joined. */
  method Calculate(p: Polyline) returns (r: Result<Converted, FactoryError>)
    ensures r.Failure? <==> |p.points| < 2
    ensures r.Failure? ==> r.error == InvalidPrecondition(None)
    ensures r.Success? ==> Pieces(r.value) == Chain(p)
    ensures r.Success? ==> (r.value.LoneSegment? <==> |p.points| == 2 && !p.closed)
  {
    if |p.points| < 2 {
      return Failure(InvalidPrecondition(None));
    }
    var segments := BuildSegments(p.points, p.closed);
    assert segments == Chain(p);
    if |segments| == 1 {
      return Success(LoneSegment(segments[0]));
    }
    return Success(Joined(segments));
  }

  /** Dispatches on the curve type of the instance `curve` names. */
  method Prepare(curve: Name, db: map<Name, SpaceInstance>) returns (r: Result<Prepared, FactoryError>)
    ensures curve !in db ==> r == Failure(NotFound(curve))
    ensures curve in db ==>
      match db[curve].curve
      case ContourCurve(_) => r == Success(Unchanged(db[curve]))
      case ArcCurve(a) => r == Success(ArcContour(a))
      case OtherCurve(t) => r == Failure(InvalidPrecondition(Some(t)))
      case PolylineCurve(p) =>
        && (r.Failure? <==> |p.points| < 2)
        && (r.Failure? ==> r.error == InvalidPrecondition(None))
        && (r.Success? ==> r.value.FromPolyline? && Pieces(r.value.converted) == Chain(p))
  {
    if curve !in db {
      return Failure(NotFound(curve));
    }
    var inst := db[curve];
    match inst.curve {
      case PolylineCurve(p) =>
        var converted := Calculate(p);
        match converted {
          case Failure(e) => r := Failure(e);
          case Success(c) => r := Success(FromPolyline(c));
        }
      case ContourCurve(_) => r := Success(Unchanged(inst));
      case ArcCurve(a) => r := Success(ArcContour(a));
      case OtherCurve(t) => r := Failure(InvalidPrecondition(Some(t)));
    }
  }

  // ---------------------------------------------------------------------------
  // The contour setter

  datatype ControlPoint = ControlPoint(index: int)

  /** The factory's contour, radius array and original item. The control
      point selection is passed to `CornerAngles` directly. */
  datatype ContourFactory = ContourFactory(
    contour: Option<Contour>,
    radiuses: seq<real>,
    original: Option<Name>)

  /** The three things the setter accepts: a contour, a kernel instance, or a
      view to look up in the database. */
  datatype ContourSource = FromContour(contour: Contour) | FromInstance(inst: SpaceInstance) | FromView(view: Name)

  /** The contour a source denotes, or why it denotes none. */
  function Resolve(source: ContourSource, db: map<Name, SpaceInstance>): Result<Contour, FactoryError> {
    match source
    case FromContour(c) => Success(c)
    case FromInstance(inst) => if inst.curve.ContourCurve? then Success(inst.curve.contour) else Failure(ContourExpected)
    case FromView(v) =>
      if v !in db then Failure(NotFound(v))
      else if db[v].curve.ContourCurve? then Success(db[v].curve.contour)
      else Failure(ContourExpected)
  }

  /** One radius per fillable corner: a closed contour has as many corners as
      segments, an open one one fewer. */
  function RadiusCount(c: Contour): int {
    if c.closed then c.segmentCount else c.segmentCount - 1
  }

  /** Stores the contour, then resets the radius array to zeros. */
  function StoreContour(f: ContourFactory, c: Contour): (r: Outcome<ContourFactory, (), FactoryError>)
    ensures r.state.contour == Some(c) && r.state.original == f.original
    ensures r.Returned? <==> RadiusCount(c) >= 0
    ensures r.Threw? ==> r.error == InvalidArrayLength && r.state.radiuses == f.radiuses
    ensures r.Returned? ==> |r.state.radiuses| == RadiusCount(c) && forall i :: 0 <= i < |r.state.radiuses| ==> r.state.radiuses[i] == 0.0
  {
    var f1 := f.(contour := Some(c));
    var fillNumber := c.segmentCount - (if c.closed then 0 else 1);
    if fillNumber < 0 then Threw(f1, InvalidArrayLength)
    else Returned(f1.(radiuses := seq(fillNumber, _ => 0.0)), ())
  }

  /** The setter: a view is looked up and set as an instance, and only then
      recorded as the original item. */
  function SetContour(f: ContourFactory, source: ContourSource, db: map<Name, SpaceInstance>): (r: Outcome<ContourFactory, (), FactoryError>)
    ensures Resolve(source, db).Failure? ==> r == Threw(f, Resolve(source, db).error)
    ensures Resolve(source, db).Success? ==> var c := Resolve(source, db).value;
      && r.state.contour == Some(c)
      && (r.Returned? <==> c.closed || c.segmentCount > 0)
      && (r.Threw? ==> r.error == InvalidArrayLength && r.state.radiuses == f.radiuses && r.state.original == f.original)
      && (r.Returned? ==>
            && |r.state.radiuses| == (if c.closed then c.segmentCount else c.segmentCount - 1)
            && (forall i :: 0 <= i < |r.state.radiuses| ==> r.state.radiuses[i] == 0.0)
            && r.state.original == (if source.FromView? then Some(source.view) else f.original))
    decreases if source.FromView? then 1 else 0
  {
    match source
    case FromContour(c) => StoreContour(f, c)
    case FromInstance(inst) =>
      if inst.curve.ContourCurve? then StoreContour(f, inst.curve.contour) else Threw(f, ContourExpected)
    case FromView(v) =>
      if v !in db then Threw(f, NotFound(v))
      else
        match SetContour(f, FromInstance(db[v]), db)
        case Returned(f1, _) => Returned(f1.(original := Some(v)), ())
        case Threw(f1, e) => Threw(f1, e)
  }

  // ---------------------------------------------------------------------------
  // Corner angles

  datatype AngleInfo = AngleInfo(origin: Point, tau: Point, axis: Point, angle: real)

  datatype CornerAngle = CornerAngle(index: int, info: AngleInfo)

  /** An entry of the corner map: its key and its value. */
  datatype Corner = Corner(key: int, angle: CornerAngle)

  /** Keys 1 .. segmentCount-1 are interior corners; key 0 is the closing
      corner of a closed contour. */
  predicate IsCornerKey(c: Contour, key: int) {
    (1 <= key < c.segmentCount) || (key == 0 && c.closed)
  }

  /** The argument the kernel's corner query is called with for a key. */
  function QueryIndex(c: Contour, key: int): int {
    if key == 0 then c.segmentCount else key
  }

  /** The `index` a corner carries: key - 1, and segmentCount - 1 for key 0. */
  function CornerIndex(c: Contour, key: int): int {
    if key == 0 then c.segmentCount - 1 else key - 1
  }

  /** The corner map's value at `key`: present when the key is a corner and
      the kernel's angle query for it succeeds. */
  function CornerAt(c: Contour, key: int, angleAt: (Contour, int) -> Option<AngleInfo>): Option<CornerAngle> {
    if !IsCornerKey(c, key) then None
    else
      match angleAt(c, QueryIndex(c, key))
      case Some(info) => Some(CornerAngle(CornerIndex(c, key), info))
      case None => None
  }

  lemma CornerAtInterior(c: Contour, i: int, angleAt: (Contour, int) -> Option<AngleInfo>)
    requires 1 <= i < c.segmentCount
    ensures CornerAt(c, i, angleAt).Some? <==> angleAt(c, i).Some?
    ensures CornerAt(c, i, angleAt).Some? ==> CornerAt(c, i, angleAt).value == CornerAngle(i - 1, angleAt(c, i).value)
  {
  }

  /** The interior part of the corner map, keys 1 .. segmentCount-1 ascending. */
  method InteriorCorners(c: Contour, angleAt: (Contour, int) -> Option<AngleInfo>) returns (entries: seq<Corner>)
    ensures forall j :: 0 <= j < |entries| ==> 1 <= entries[j].key < c.segmentCount
    ensures forall j :: 0 <= j < |entries| ==> CornerAt(c, entries[j].key, angleAt) == Some(entries[j].angle)
    ensures forall key :: 1 <= key < c.segmentCount && CornerAt(c, key, angleAt).Some? ==>
      exists j :: 0 <= j < |entries| && entries[j].key == key
    ensures forall a, b :: 0 <= a < b < |entries| ==> entries[a].key < entries[b].key
  {
    entries := [];
    var i := 1;
    while i < c.segmentCount
      invariant 1 <= i && (i <= c.segmentCount || i == 1)
      invariant forall j :: 0 <= j < |entries| ==> 1 <= entries[j].key < i
      invariant forall j :: 0 <= j < |entries| ==> CornerAt(c, entries[j].key, angleAt) == Some(entries[j].angle)
      invariant forall key :: 1 <= key < i && CornerAt(c, key, angleAt).Some? ==> exists j :: 0 <= j < |entries| && entries[j].key == key
      invariant forall a, b :: 0 <= a < b < |entries| ==> entries[a].key < entries[b].key
    {
      ghost var before := entries;
      CornerAtInterior(c, i, angleAt);
      match angleAt(c, i) {
        case Some(info) =>
          entries := entries + [Corner(i, CornerAngle(i - 1, info))];
        case None =>
      }
      forall key | 1 <= key < i + 1 && CornerAt(c, key, angleAt).Some?
        ensures exists j :: 0 <= j < |entries| && entries[j].key == key
      {
        if key == i {
          assert entries[|entries| - 1].key == key;
        } else {
          var j :| 0 <= j < |before| && before[j].key == key;
          assert entries[j] == before[j];
        }
      }
      i := i + 1;
    }
  }

  /** Builds the corner map in insertion order: interior corners by ascending
      key, then the closing corner. Corners whose query fails are skipped. */
  method AllCorners(c: Contour, angleAt: (Contour, int) -> Option<AngleInfo>) returns (entries: seq<Corner>)
    ensures forall j :: 0 <= j < |entries| ==> CornerAt(c, entries[j].key, angleAt) == Some(entries[j].angle)
    ensures forall key :: CornerAt(c, key, angleAt).Some? ==> exists j :: 0 <= j < |entries| && entries[j].key == key
    ensures forall i, j :: 0 <= i < j < |entries| ==> QueryIndex(c, entries[i].key) < QueryIndex(c, entries[j].key)
  {
    var interior := InteriorCorners(c, angleAt);
    entries := interior;
    if c.closed {
      match angleAt(c, c.segmentCount) {
        case Some(info) =>
          entries := entries + [Corner(0, CornerAngle(c.segmentCount - 1, info))];
          assert CornerAt(c, 0, angleAt) == Some(entries[|entries| - 1].angle);
        case None =>
      }
    }
    forall key | CornerAt(c, key, angleAt).Some? ensures exists j :: 0 <= j < |entries| && entries[j].key == key {
      if key == 0 {
        assert entries[|entries| - 1].key == key;
      } else {
        var j :| 0 <= j < |interior| && interior[j].key == key;
        assert entries[j] == interior[j];
      }
    }
  }

  /** Position `j` holds the first entry stored under `key`. */
  predicate FirstAt(entries: seq<Corner>, key: int, j: int) {
    0 <= j < |entries| && entries[j].key == key && forall i :: 0 <= i < j ==> entries[i].key != key
  }

  /** The first value stored under `key` in an entry list. */
  function Find(entries: seq<Corner>, key: int): (r: Option<CornerAngle>)
    ensures r.Some? ==> exists j :: FirstAt(entries, key, j) && entries[j].angle == r.value
    ensures r.None? ==> forall j :: 0 <= j < |entries| ==> entries[j].key != key
  {
    if |entries| == 0 then None
    else if entries[0].key == key then
      assert FirstAt(entries, key, 0);
      Some(entries[0].angle)
    else
      var r := Find(entries[1..], key);
      assert r.Some? ==> exists j :: FirstAt(entries, key, j) && entries[j].angle == r.value by {
        if r.Some? {
          var j :| FirstAt(entries[1..], key, j) && entries[1..][j].angle == r.value;
          assert entries[j + 1] == entries[1..][j];
          forall i | 0 <= i < j + 1 ensures entries[i].key != key {
            if i > 0 {
              assert entries[i] == entries[1..][i - 1];
            }
          }
          assert FirstAt(entries, key, j + 1);
        }
      }
      r
  }

  /** In an entry list that holds exactly the corners, looking a key up finds that key's corner. */
  lemma FindAgreesWithCornerAt(c: Contour, angleAt: (Contour, int) -> Option<AngleInfo>, entries: seq<Corner>, key: int)
    requires forall j :: 0 <= j < |entries| ==> CornerAt(c, entries[j].key, angleAt) == Some(entries[j].angle)
    requires forall key :: CornerAt(c, key, angleAt).Some? ==> exists j :: 0 <= j < |entries| && entries[j].key == key
    ensures Find(entries, key) == CornerAt(c, key, angleAt)
  {
    var found := Find(entries, key);
    if CornerAt(c, key, angleAt).Some? {
      var j :| 0 <= j < |entries| && entries[j].key == key;
      assert found.Some?;
    }
  }

  /** The corner angles: one entry per selected control point, in selection
      order (absent where that corner has none); with no selection, every
      corner in the map's insertion order, which is ascending `index`. */
  method CornerAngles(c: Contour, controlPoints: seq<ControlPoint>, angleAt: (Contour, int) -> Option<AngleInfo>)
    returns (r: seq<Option<CornerAngle>>)
    ensures |controlPoints| > 0 ==>
      && |r| == |controlPoints|
      && forall j :: 0 <= j < |r| ==> r[j] == CornerAt(c, controlPoints[j].index, angleAt)
    ensures |controlPoints| == 0 ==>
      && (forall j :: 0 <= j < |r| ==> r[j].Some? && exists key :: CornerAt(c, key, angleAt) == r[j])
      && (forall key :: CornerAt(c, key, angleAt).Some? ==> CornerAt(c, key, angleAt) in r)
      && (forall i, j :: 0 <= i < j < |r| ==> r[i].value.index < r[j].value.index)
  {
    var entries := AllCorners(c, angleAt);
    if |controlPoints| > 0 {
      r := SelectCorners(c, angleAt, entries, controlPoints);
    } else {
      r := ListCorners(entries);
      ListedCornersAreTheCorners(c, angleAt, entries, r);
    }
  }

  /** One lookup per selected control point, in selection order. */
  method SelectCorners(c: Contour, angleAt: (Contour, int) -> Option<AngleInfo>, entries: seq<Corner>, controlPoints: seq<ControlPoint>)
    returns (r: seq<Option<CornerAngle>>)
    requires forall j :: 0 <= j < |entries| ==> CornerAt(c, entries[j].key, angleAt) == Some(entries[j].angle)
    requires forall key :: CornerAt(c, key, angleAt).Some? ==> exists j :: 0 <= j < |entries| && entries[j].key == key
    ensures |r| == |controlPoints|
    ensures forall j :: 0 <= j < |r| ==> r[j] == CornerAt(c, controlPoints[j].index, angleAt)
  {
    r := [];
    var k := 0;
    while k < |controlPoints|
      invariant 0 <= k <= |controlPoints| && |r| == k
      invariant forall j :: 0 <= j < k ==> r[j] == CornerAt(c, controlPoints[j].index, angleAt)
    {
      var found := Find(entries, controlPoints[k].index);
      FindAgreesWithCornerAt(c, angleAt, entries, controlPoints[k].index);
      r := r + [found];
      k := k + 1;
    }
  }

  /** The map's values in insertion order. */
  method ListCorners(entries: seq<Corner>) returns (r: seq<Option<CornerAngle>>)
    ensures |r| == |entries|
    ensures forall j :: 0 <= j < |r| ==> r[j] == Some(entries[j].angle)
  {
    r := [];
    var k := 0;
    while k < |entries|
      invariant 0 <= k <= |entries| && |r| == k
      invariant forall j :: 0 <= j < k ==> r[j] == Some(entries[j].angle)
    {
      r := r + [Some(entries[k].angle)];
      k := k + 1;
    }
  }

  /** Listing a corner map that holds exactly the corners, in ascending query
      order, gives every corner once, in ascending index order. */
  lemma ListedCornersAreTheCorners(c: Contour, angleAt: (Contour, int) -> Option<AngleInfo>, entries: seq<Corner>, r: seq<Option<CornerAngle>>)
    requires forall j :: 0 <= j < |entries| ==> CornerAt(c, entries[j].key, angleAt) == Some(entries[j].angle)
    requires forall key :: CornerAt(c, key, angleAt).Some? ==> exists j :: 0 <= j < |entries| && entries[j].key == key
    requires forall i, j :: 0 <= i < j < |entries| ==> QueryIndex(c, entries[i].key) < QueryIndex(c, entries[j].key)
    requires |r| == |entries| && forall j :: 0 <= j < |r| ==> r[j] == Some(entries[j].angle)
    ensures forall j :: 0 <= j < |r| ==> r[j].Some? && exists key :: CornerAt(c, key, angleAt) == r[j]
    ensures forall key :: CornerAt(c, key, angleAt).Some? ==> CornerAt(c, key, angleAt) in r
    ensures forall i, j :: 0 <= i < j < |r| ==> r[i].value.index < r[j].value.index
  {
    forall j | 0 <= j < |r| ensures r[j].value.index == QueryIndex(c, entries[j].key) - 1 {
      assert CornerAt(c, entries[j].key, angleAt) == Some(entries[j].angle);
    }
    forall j | 0 <= j < |r| ensures exists key :: CornerAt(c, key, angleAt) == r[j] {
      assert CornerAt(c, entries[j].key, angleAt) == r[j];
    }
    forall key | CornerAt(c, key, angleAt).Some? ensures CornerAt(c, key, angleAt) in r {
      var j :| 0 <= j < |entries| && entries[j].key == key;
      assert r[j] == CornerAt(c, key, angleAt);
    }
  }

  /** The corner key whose radius sits in slot `i` of the radius array. */
  function CornerKeyOf(c: Contour, i: int): int {
    if c.closed && i == c.segmentCount - 1 then 0 else i + 1
  }

  /** After a contour with at least one segment is set, corner keys and radius
      slots correspond one to one: every corner's index addresses a radius
      slot, and every slot belongs to exactly one corner. */
  lemma OneRadiusPerCorner(f: ContourFactory, c: Contour, db: map<Name, SpaceInstance>)
    requires c.segmentCount > 0
    ensures var r := SetContour(f, FromContour(c), db);
      && r.Returned?
      && (forall key :: IsCornerKey(c, key) ==>
            0 <= CornerIndex(c, key) < |r.state.radiuses| && CornerKeyOf(c, CornerIndex(c, key)) == key)
      && (forall i :: 0 <= i < |r.state.radiuses| ==>
            IsCornerKey(c, CornerKeyOf(c, i)) && CornerIndex(c, CornerKeyOf(c, i)) == i)
  {
  }
}

=== FILE: geometry_store.dfy ===
/** An abstract geometry database: the store that the modifier layer sits in
    front of. Its own source is not part of this model; it is reduced to the
    contract its callers rely on: every item has a version name, names are
    never reused, a replace retires the old name and issues a new one, and a
    replace, removal, duplicate or lookup of a retired name fails with a
    stale-reference error. Hiding, unhiding and temporary objects do not
    check the name.

    Kernel geometry is kept abstract: `Shape(id)` stands for any item a
    command produced and `Symmetrized(base)` for what the symmetry factory
    computes from `base`. */
module GeometryStore {
  import opened Results

  /** A version name (`simpleName`) of a stored item. */
  type Name = nat

  /** The handle of a temporary (preview) object. */
  type TempId = nat

  datatype Item = Shape(id: nat) | Symmetrized(base: Item)

  /** Who created an item: a user command or a modifier. */
  datatype Agent = User | Automatic

  datatype Entry = Entry(model: Item, agent: Agent)

  datatype TempKind = Preview | Phantom

  /** A temporary object: never persisted, shown and cancelled explicitly.
      `over` is the item a replacing preview stands in for. */
  datatype Temp = Temp(model: Item, over: Option<Name>, kind: TempKind, visible: bool, cancelled: bool)

  datatype StoreError = StaleReference(name: Name)

  /** `items` are the live versions; `baseOf` and `derivedOf` are the two
      directions of the advisory modified-by link kept on the views. */
  datatype Store = Store(
    items: map<Name, Entry>,
    hidden: set<Name>,
    temps: seq<Temp>,
    next: Name,
    baseOf: map<Name, Name>,
    derivedOf: map<Name, Name>)

  const Empty := Store(map[], {}, [], 0, map[], map[])

  /** Every live name was issued before `next`, so `next` is fresh. */
  predicate Valid(s: Store) {
    forall n :: n in s.items ==> n < s.next
  }

  function AddItem(s: Store, model: Item, agent: Agent): (r: (Store, Name))
    ensures Valid(s) ==> Valid(r.0) && r.1 !in s.items
    ensures r.1 >= s.next && r.0.next > r.1
    ensures r.0.items == s.items[r.1 := Entry(model, agent)]
    ensures r.0.temps == s.temps && r.0.hidden == s.hidden
    ensures r.0.baseOf == s.baseOf && r.0.derivedOf == s.derivedOf
  {
    (s.(items := s.items[s.next := Entry(model, agent)], next := s.next + 1), s.next)
  }

  /** Retires `from` and stores `model` under a fresh name; the agent carries over. */
  function ReplaceItem(s: Store, from: Name, model: Item): (r: Result<(Store, Name), StoreError>)
    ensures r.Success? <==> from in s.items
    ensures r.Failure? ==> r.error == StaleReference(from)
    ensures r.Success? ==> var (s', n) := r.value;
      && n >= s.next && s'.next > n
      && (Valid(s) ==> Valid(s') && n !in s.items)
      && s'.items == (s.items - {from})[n := Entry(model, s.items[from].agent)]
      && s'.temps == s.temps && s'.hidden == s.hidden
      && s'.baseOf == s.baseOf && s'.derivedOf == s.derivedOf
  {
    if from !in s.items then Failure(StaleReference(from))
    else
      var s' := s.(items := (s.items - {from})[s.next := Entry(model, s.items[from].agent)], next := s.next + 1);
      Success((s', s.next))
  }

  function RemoveItem(s: Store, name: Name): (r: Result<Store, StoreError>)
    ensures r.Success? <==> name in s.items
    ensures r.Failure? ==> r.error == StaleReference(name)
    ensures r.Success? ==> r.value == s.(items := s.items - {name})
  {
    if name !in s.items then Failure(StaleReference(name))
    else Success(s.(items := s.items - {name}))
  }

  /** Copies the current representation of `name` under a fresh name. */
  function Duplicate(s: Store, name: Name): (r: Result<(Store, Name), StoreError>)
    ensures r.Success? <==> name in s.items
    ensures r.Failure? ==> r.error == StaleReference(name)
    ensures r.Success? ==> r.value == AddItem(s, s.items[name].model, s.items[name].agent)
  {
    if name !in s.items then Failure(StaleReference(name))
    else Success(AddItem(s, s.items[name].model, s.items[name].agent))
  }

  function Lookup(s: Store, name: Name): (r: Result<Item, StoreError>)
    ensures r.Success? <==> name in s.items
    ensures r.Success? ==> r.value == s.items[name].model
  {
    if name in s.items then Success(s.items[name].model) else Failure(StaleReference(name))
  }

  function Hide(s: Store, name: Name): (r: Store)
    ensures name in r.hidden
    ensures r == s.(hidden := s.hidden + {name})
  {
    s.(hidden := s.hidden + {name})
  }

  function Unhide(s: Store, name: Name): (r: Store)
    ensures name !in r.hidden
    ensures r == s.(hidden := s.hidden - {name})
  {
    s.(hidden := s.hidden - {name})
  }

  /** Appends a new temporary object, not yet visible, and returns its handle. */
  function NewTemp(s: Store, t: Temp): (r: (Store, TempId))
    ensures r.1 == |s.temps| && r.0.temps == s.temps + [t]
    ensures r.0 == s.(temps := s.temps + [t])
  {
    (s.(temps := s.temps + [t]), |s.temps|)
  }

  function AddTemporaryItem(s: Store, model: Item): (r: (Store, TempId))
    ensures r.1 == |s.temps| && r.0.temps == s.temps + [Temp(model, None, Preview, false, false)]
    ensures r.0 == s.(temps := s.temps + [Temp(model, None, Preview, false, false)])
  {
    NewTemp(s, Temp(model, None, Preview, false, false))
  }

  function AddPhantom(s: Store, model: Item): (r: (Store, TempId))
    ensures r.1 == |s.temps| && r.0.temps == s.temps + [Temp(model, None, Phantom, false, false)]
    ensures r.0 == s.(temps := s.temps + [Temp(model, None, Phantom, false, false)])
  {
    NewTemp(s, Temp(model, None, Phantom, false, false))
  }

  function ReplaceTemporaryItem(s: Store, from: Name, model: Item): (r: (Store, TempId))
    ensures r.1 == |s.temps| && r.0.temps == s.temps + [Temp(model, Some(from), Preview, false, false)]
    ensures r.0 == s.(temps := s.temps + [Temp(model, Some(from), Preview, false, false)])
  {
    NewTemp(s, Temp(model, Some(from), Preview, false, false))
  }

  function Show(s: Store, t: TempId): (r: Store)
    requires t < |s.temps|
    ensures |r.temps| == |s.temps| && r.temps[t].visible && r.temps[t].model == s.temps[t].model
    ensures forall u :: 0 <= u < |s.temps| && u != t ==> r.temps[u] == s.temps[u]
    ensures r.items == s.items && r.hidden == s.hidden
  {
    s.(temps := s.temps[t := s.temps[t].(visible := true)])
  }

  /** Invalidates a temporary object; it is hidden for good. */
  function Cancel(s: Store, t: TempId): (r: Store)
    requires t < |s.temps|
    ensures |r.temps| == |s.temps| && r.temps[t].cancelled && !r.temps[t].visible
    ensures forall u :: 0 <= u < |s.temps| && u != t ==> r.temps[u] == s.temps[u]
    ensures r.items == s.items && r.hidden == s.hidden
  {
    s.(temps := s.temps[t := s.temps[t].(visible := false, cancelled := true)])
  }

  /** Records `derived` as modified from `base` and `base` as modifying into `derived`. */
  function Link(s: Store, derived: Name, base: Name): (r: Store)
    ensures r.baseOf == s.baseOf[derived := base] && r.derivedOf == s.derivedOf[base := derived]
    ensures r.items == s.items && r.temps == s.temps && r.hidden == s.hidden && r.next == s.next
  {
    s.(baseOf := s.baseOf[derived := base], derivedOf := s.derivedOf[base := derived])
  }
}

=== FILE: modifier_invariants.dfy ===
/** Invariants of the modifier layer and the properties that relate several calls.

    `Wf` (in ModifierManager) is what every successful operation preserves.
    `Tracked` adds that no live item is lost track of: each is either a
    registered version or the derived solid of some modifier list. Together
    they say the registered versions are exactly the live, non-derived items. */
module ModifierInvariants {
  import opened Results
  import opened GeometryStore
  import opened ModifierManager

  predicate Tracked(m: Manager) {
    m.store.items.Keys <= m.version2name.Keys + Derived(m.modifiers)
  }

  function LastSet(list: ModifierList): set<Name> {
    if list.last.Some? then {list.last.value} else {}
  }

  const Initial := Manager(GeometryStore.Empty, map[], map[])

  lemma InitialIsWf()
    ensures Wf(Initial) && Tracked(Initial)
    ensures Initial.version2name.Keys == Initial.store.items.Keys
  {
  }

  /** With both invariants, the registered versions are exactly the live
      items that are not derived solids. */
  lemma RegisteredAreLiveNonDerived(m: Manager)
    requires Wf(m) && Tracked(m)
    ensures m.version2name.Keys == m.store.items.Keys - Derived(m.modifiers)
  {
  }

  lemma DerivedAfterSet(mods: map<Name, ModifierList>, name: Name, list: ModifierList)
    ensures Derived(mods[name := list]) == Derived(mods - {name}) + LastSet(list)
    ensures Derived(mods - {name}) <= Derived(mods)
    ensures name in mods ==> Derived(mods) == Derived(mods - {name}) + LastSet(mods[name])
  {
    var after := mods[name := list];
    forall k | k in Derived(after) ensures k in Derived(mods - {name}) + LastSet(list) {
      var n :| n in after && after[n].last.Some? && after[n].last.value == k;
      if n != name {
        assert (mods - {name})[n] == mods[n];
      }
    }
    forall k | k in Derived(mods - {name}) + LastSet(list) ensures k in Derived(after) {
      if k in LastSet(list) {
        assert after[name] == list;
      } else {
        var n :| n in mods - {name} && (mods - {name})[n].last.Some? && (mods - {name})[n].last.value == k;
        assert after[n] == mods[n];
      }
    }
    forall k | k in Derived(mods - {name}) ensures k in Derived(mods) {
      var n :| n in mods - {name} && (mods - {name})[n].last.Some? && (mods - {name})[n].last.value == k;
      assert mods[n] == (mods - {name})[n];
    }
    if name in mods {
      forall k | k in Derived(mods) ensures k in Derived(mods - {name}) + LastSet(mods[name]) {
        var n :| n in mods && mods[n].last.Some? && mods[n].last.value == k;
        if n != name {
          assert (mods - {name})[n] == mods[n];
        }
      }
    }
  }

  /** The derived solid a name's list held before an operation, if any. */
  function OldLast(mods: map<Name, ModifierList>, name: Name): Option<Name> {
    if name in mods then mods[name].last else None
  }

  /** Well-formedness survives an operation that changes one modifier list,
      keeps or freshly issues its derived solid, and only registers fresh versions. */
  lemma ListChangeKeepsWf(m: Manager, m': Manager, name: Name, list': ModifierList)
    requires Wf(m)
    requires Valid(m'.store) && m.store.next <= m'.store.next && |m.store.temps| <= |m'.store.temps|
    requires m'.modifiers == m.modifiers[name := list'] && TempValid(m'.store, list')
    requires list'.last == OldLast(m.modifiers, name) || (list'.last.Some? && m.store.next <= list'.last.value < m'.store.next)
    requires name < m.store.next
    requires m'.version2name.Keys <= m'.store.items.Keys
    requires forall k :: k in m'.version2name && k !in m.version2name ==> m.store.next <= k && Some(k) != list'.last
    requires forall k :: k in m'.version2name ==>
      m'.version2name[k] == name || (k in m.version2name && m'.version2name[k] == m.version2name[k])
    ensures Wf(m')
  {
    DerivedAfterSet(m.modifiers, name, list');
    forall n | n in m'.modifiers ensures TempValid(m'.store, m'.modifiers[n]) && n < m'.store.next {
      if n != name {
        assert m'.modifiers[n] == m.modifiers[n];
      }
    }
    forall n | n in m'.modifiers && m'.modifiers[n].last.Some? ensures m'.modifiers[n].last.value < m'.store.next {
      if n != name {
        assert m'.modifiers[n] == m.modifiers[n];
      }
    }
    forall n1, n2 | n1 in m'.modifiers && n2 in m'.modifiers && n1 != n2 && m'.modifiers[n1].last.Some?
      ensures m'.modifiers[n1].last != m'.modifiers[n2].last
    {
      if n1 != name && n2 != name {
        assert m'.modifiers[n1] == m.modifiers[n1] && m'.modifiers[n2] == m.modifiers[n2];
      } else if n1 == name {
        assert m'.modifiers[n2] == m.modifiers[n2];
      } else {
        assert m'.modifiers[n1] == m.modifiers[n1];
      }
    }
    forall k | k in m'.version2name ensures k !in Derived(m'.modifiers) {
      if k in m.version2name {
        assert k !in Derived(m.modifiers);
        assert k < m.store.next;
      }
    }
  }

  /** Tracking survives such an operation when every live item afterwards is a
      registered version, the list's derived solid, or an item that was live
      before, kept its registration and is not the list's dropped derived solid. */
  lemma ListChangeKeepsTracked(m: Manager, m': Manager, name: Name, list': ModifierList)
    requires Tracked(m)
    requires m'.modifiers == m.modifiers[name := list']
    requires forall k :: k in m'.store.items ==>
      || k in m'.version2name
      || Some(k) == list'.last
      || (&& k in m.store.items
          && (k in m.version2name ==> k in m'.version2name)
          && (Some(k) == OldLast(m.modifiers, name) ==> Some(k) == list'.last))
    ensures Tracked(m')
  {
    DerivedAfterSet(m.modifiers, name, list');
    forall k | k in m'.store.items ensures k in m'.version2name.Keys + Derived(m'.modifiers) {
      if k !in m'.version2name && Some(k) != list'.last {
        assert k in Derived(m.modifiers);
        if name in m.modifiers {
          assert k !in LastSet(m.modifiers[name]);
        } else {
          assert m.modifiers - {name} == m.modifiers;
        }
      }
    }
  }

  lemma AddItemPreserves(m: Manager, model: Item, agent: Agent)
    requires Wf(m)
    ensures Wf(ModifierManager.AddItem(m, model, agent).0)
    ensures Tracked(m) ==> Tracked(ModifierManager.AddItem(m, model, agent).0)
  {
  }

  lemma DuplicatePreserves(m: Manager, item: Name)
    requires Wf(m)
    ensures var r := ModifierManager.Duplicate(m, item);
      r.Success? ==> Wf(r.value.0) && (Tracked(m) ==> Tracked(r.value.0))
  {
  }

  lemma RemoveItemPreserves(m: Manager, view: Name)
    requires Wf(m)
    ensures Wf(ModifierManager.RemoveItem(m, view))
    ensures Tracked(m) ==> Tracked(ModifierManager.RemoveItem(m, view))
  {
  }

  lemma ReplaceItemPreserves(m: Manager, from: Name, to: Item)
    requires Wf(m) && from in m.version2name
    ensures var r := ModifierManager.ReplaceItem(m, from, to);
      r.Returned? ==> Wf(r.state) && (Tracked(m) ==> Tracked(r.state))
  {
    var r := ModifierManager.ReplaceItem(m, from, to);
    if r.Returned? {
      var name := m.version2name[from];
      var (s1, view) := GeometryStore.ReplaceItem(m.store, from, to).value;
      if name in m.modifiers {
        ReplaceItemWithListPreserves(m, from, to);
      } else {
        ReplaceItemWithoutListPreserves(m, from, to);
      }
    }
  }

  lemma ReplaceItemWithoutListPreserves(m: Manager, from: Name, to: Item)
    requires Wf(m) && from in m.version2name && m.version2name[from] !in m.modifiers
    ensures var m' := ModifierManager.ReplaceItem(m, from, to).state;
      Wf(m') && (Tracked(m) ==> Tracked(m'))
  {
    var name := m.version2name[from];
    var (s1, view) := GeometryStore.ReplaceItem(m.store, from, to).value;
    var m' := m.(store := s1, version2name := (m.version2name - {from})[view := name]);
    assert ModifierManager.ReplaceItem(m, from, to).state == m';
    assert view !in Derived(m.modifiers);
    forall k | k in m'.version2name ensures m'.version2name[k] < m'.store.next {
      if k != view {
        assert m'.version2name[k] == m.version2name[k];
      }
    }
  }

  lemma ReplaceItemWithListPreserves(m: Manager, from: Name, to: Item)
    requires Wf(m) && from in m.version2name && m.version2name[from] in m.modifiers
    requires ModifierManager.ReplaceItem(m, from, to).Returned?
    ensures var m' := ModifierManager.ReplaceItem(m, from, to).state;
      Wf(m') && (Tracked(m) ==> Tracked(m'))
  {
    var name := m.version2name[from];
    var (s1, view) := GeometryStore.ReplaceItem(m.store, from, to).value;
    var list := m.modifiers[name];
    var (s2, list') := Update(s1, list, to, view).value;
    var m' := Manager(s2, m.modifiers[name := list'], (m.version2name - {from})[view := name]);
    assert ModifierManager.ReplaceItem(m, from, to).state == m';
    ListChangeKeepsWf(m, m', name, list');
    if Tracked(m) {
      ListChangeKeepsTracked(m, m', name, list');
    }
  }

  lemma ReplaceTemporaryItemPreserves(m: Manager, from: Name, to: Item)
    requires Wf(m) && from in m.version2name
    ensures var m' := ModifierManager.ReplaceTemporaryItem(m, from, to).0;
      Wf(m') && (Tracked(m) ==> Tracked(m'))
  {
    var (m', t) := ModifierManager.ReplaceTemporaryItem(m, from, to);
    var name := m.version2name[from];
    if name in m.modifiers {
      ListChangeKeepsWf(m, m', name, m'.modifiers[name]);
      if Tracked(m) {
        ListChangeKeepsTracked(m, m', name, m'.modifiers[name]);
      }
    }
  }

  /** Attaching a list keeps the manager well formed; it keeps every live item
      tracked only when the name had no live derived solid yet. */
  lemma AddPreserves(m: Manager, solid: Name)
    requires Wf(m) && solid in m.version2name
    ensures Wf(ModifierManager.Add(m, solid))
    ensures Tracked(m) && !HasLiveDerived(m, solid) ==> Tracked(ModifierManager.Add(m, solid))
  {
    var m' := ModifierManager.Add(m, solid);
    var name := m.version2name[solid];
    ListChangeKeepsWf(m, m', name, m'.modifiers[name]);
    if Tracked(m) && !HasLiveDerived(m, solid) {
      ListChangeKeepsTracked(m, m', name, m'.modifiers[name]);
    }
  }

  /** The logical name of `solid` already has a list whose derived solid is live. */
  predicate HasLiveDerived(m: Manager, solid: Name)
    requires solid in m.version2name
  {
    var name := m.version2name[solid];
    name in m.modifiers && m.modifiers[name].last.Some? && m.modifiers[name].last.value in m.store.items
  }

  /** Attaching a second list to a name drops the first list without retiring
      its derived solid: that solid stays live, but neither the version map nor
      any list refers to it any more. */
  lemma AddAgainOrphansDerived(m: Manager, solid: Name)
    requires Wf(m) && solid in m.version2name && HasLiveDerived(m, solid)
    ensures var old_d := m.modifiers[m.version2name[solid]].last.value;
      var m' := ModifierManager.Add(m, solid);
      && old_d in m'.store.items
      && old_d !in m'.version2name
      && old_d !in Derived(m'.modifiers)
      && !Tracked(m')
  {
    var name := m.version2name[solid];
    var old_d := m.modifiers[name].last.value;
    var m' := ModifierManager.Add(m, solid);
    var list' := m'.modifiers[name];
    DerivedAfterSet(m.modifiers, name, list');
  }

  /** If the derived solid was deleted behind the list's back, a replace of the
      base throws after the store has already replaced it: the old version stays
      registered though it is dead, and the new version is live but unregistered. */
  lemma ReplaceItemThrowLeavesStaleKey(m: Manager, from: Name, to: Item)
    requires Wf(m) && from in m.version2name
    ensures var r := ModifierManager.ReplaceItem(m, from, to);
      r.Threw? ==>
        && from in r.state.version2name && from !in r.state.store.items
        && !Wf(r.state)
  {
  }

  /** A chain of replacements of one item, each applied to the previous result. */
  function ReplaceChain(m: Manager, from: Name, models: seq<Item>): (r: Outcome<Manager, Name, StoreError>)
    requires Wf(m) && from in m.version2name
    decreases |models|
  {
    if |models| == 0 then Returned(m, from)
    else
      ReplaceItemPreserves(m, from, models[0]);
      match ModifierManager.ReplaceItem(m, from, models[0])
      case Threw(s, e) => Threw(s, e)
      case Returned(m', view) => ReplaceChain(m', view, models[1..])
  }

  /** However often an item is replaced, its current version still resolves to
      the logical name it started with, and no modifier list appears or vanishes. */
  lemma {:induction false} LogicalNameSurvivesReplaces(m: Manager, from: Name, models: seq<Item>)
    requires Wf(m) && from in m.version2name
    ensures var r := ReplaceChain(m, from, models);
      r.Returned? ==>
        && r.value in r.state.version2name
        && r.state.version2name[r.value] == m.version2name[from]
        && |r.state.version2name| == |m.version2name|
        && r.state.modifiers.Keys == m.modifiers.Keys
    decreases |models|
  {
    if |models| > 0 {
      ReplaceItemPreserves(m, from, models[0]);
      var r1 := ModifierManager.ReplaceItem(m, from, models[0]);
      if r1.Returned? {
        LogicalNameSurvivesReplaces(r1.state, r1.value, models[1..]);
      }
    }
  }

  /** Repeated previews through one modifier list. Returns the store, the list
      and the handles produced, in order. */
  function PreviewRun(s: Store, list: ModifierList, from: Name, models: seq<Item>): (r: (Store, ModifierList, seq<TempId>))
    requires TempValid(s, list)
    ensures |r.2| == |models| && TempValid(r.0, r.1)
    ensures |r.0.temps| == |s.temps| + |models| && r.0.items == s.items
    ensures forall j :: 0 <= j < |r.2| ==> |s.temps| <= r.2[j] < |r.0.temps|
    ensures |models| > 0 ==> r.1.temp == Some(r.2[|models| - 1])
    ensures |models| == 0 ==> r == (s, list, [])
    decreases |models|
  {
    if |models| == 0 then (s, list, [])
    else
      var (s1, list1, t) := Tempf(s, list, from, models[0]);
      var (s2, list2, ts) := PreviewRun(s1, list1, from, models[1..]);
      (s2, list2, [t] + ts)
  }

  /** Of all the previews a run of `tempf` calls publishes, only the newest is
      still live: every earlier one, and the list's preview from before the
      run, has been cancelled. */
  lemma {:induction false} OnlyNewestPreviewLive(s: Store, list: ModifierList, from: Name, models: seq<Item>)
    requires TempValid(s, list) && |models| > 0
    ensures var (s', list', ts) := PreviewRun(s, list, from, models);
      && list'.temp == Some(ts[|ts| - 1])
      && s'.temps[ts[|ts| - 1]].visible && !s'.temps[ts[|ts| - 1]].cancelled
      && (forall j :: 0 <= j < |ts| - 1 ==> s'.temps[ts[j]].cancelled && !s'.temps[ts[j]].visible)
      && (list.temp.Some? ==> s'.temps[list.temp.value].cancelled && !s'.temps[list.temp.value].visible)
    decreases |models|
  {
    var (s1, list1, t) := Tempf(s, list, from, models[0]);
    var (s', list', ts) := PreviewRun(s, list, from, models);
    if |models| > 1 {
      OnlyNewestPreviewLive(s1, list1, from, models[1..]);
      var (s2, list2, ts2) := PreviewRun(s1, list1, from, models[1..]);
      assert ts == [t] + ts2 && s' == s2;
      forall j | 0 <= j < |ts| - 1 ensures s'.temps[ts[j]].cancelled && !s'.temps[ts[j]].visible {
        if j > 0 {
          assert ts[j] == ts2[j - 1];
        }
      }
      if list.temp.Some? {
        PreviewRunKeepsCancelled(s1, list1, from, models[1..], list.temp.value);
      }
    }
  }

  /** A cancelled temporary object stays cancelled through later previews. */
  lemma {:induction false} PreviewRunKeepsCancelled(s: Store, list: ModifierList, from: Name, models: seq<Item>, u: TempId)
    requires TempValid(s, list) && u < |s.temps| && s.temps[u].cancelled && !s.temps[u].visible
    ensures PreviewRun(s, list, from, models).0.temps[u].cancelled
    ensures !PreviewRun(s, list, from, models).0.temps[u].visible
    decreases |models|
  {
    if |models| > 0 {
      var (s1, list1, t) := Tempf(s, list, from, models[0]);
      PreviewRunKeepsCancelled(s1, list1, from, models[1..], u);
    }
  }

  /** The mutating entry points, as commands for runs of arbitrary length. */
  datatype Command =
    | AddItemCmd(model: Item, agent: Agent)
    | DuplicateCmd(item: Name)
    | ReplaceItemCmd(from: Name, to: Item)
    | RemoveItemCmd(view: Name)
    | AddModifierCmd(solid: Name)
    | PreviewCmd(from: Name, to: Item)

  /** The command names a registered version wherever the source asserts,
      with a non-null assertion, that it does. */
  predicate Admissible(m: Manager, c: Command) {
    match c
    case ReplaceItemCmd(from, _) => from in m.version2name
    case AddModifierCmd(solid) => solid in m.version2name
    case PreviewCmd(from, _) => from in m.version2name
    case _ => true
  }

  /** One command. A command that throws leaves behind whatever state it had
      reached: only a replace has changed anything by then. A removal never
      throws, since its store call is not awaited. */
  function Step(m: Manager, c: Command): (r: Outcome<Manager, (), StoreError>)
    requires Wf(m) && Admissible(m, c)
    ensures r.Threw? && !c.ReplaceItemCmd? ==> r.state == m
    ensures r.Threw? ==> c.DuplicateCmd? || c.ReplaceItemCmd?
  {
    match c
    case AddItemCmd(model, agent) => Returned(ModifierManager.AddItem(m, model, agent).0, ())
    case DuplicateCmd(item) =>
      (match ModifierManager.Duplicate(m, item)
       case Success((m', _)) => Returned(m', ())
       case Failure(e) => Threw(m, e))
    case ReplaceItemCmd(from, to) =>
      (match ModifierManager.ReplaceItem(m, from, to)
       case Returned(m', _) => Returned(m', ())
       case Threw(s, e) => Threw(s, e))
    case RemoveItemCmd(view) =>
      Returned(ModifierManager.RemoveItem(m, view), ())
    case AddModifierCmd(solid) => Returned(ModifierManager.Add(m, solid), ())
    case PreviewCmd(from, to) => Returned(ModifierManager.ReplaceTemporaryItem(m, from, to).0, ())
  }

  /** Every derived solid a list points at is live. */
  predicate DerivedLive(m: Manager) {
    Derived(m.modifiers) <= m.store.items.Keys
  }

  /** A command attaches a second list to a name whose derived solid is live. */
  predicate Readds(m: Manager, c: Command) {
    c.AddModifierCmd? && c.solid in m.version2name && HasLiveDerived(m, c.solid)
  }

  /** A command deletes a derived solid behind its list's back. */
  predicate RemovesDerived(m: Manager, c: Command) {
    c.RemoveItemCmd? && c.view in Derived(m.modifiers)
  }

  /** Well-formedness and live derived solids survive an operation that changes
      one list, when every other live derived solid stays live and the list's
      own derived solid, if any, is live afterwards. */
  lemma ListChangeKeepsDerivedLive(m: Manager, m': Manager, name: Name, list': ModifierList)
    requires Wf(m) && DerivedLive(m)
    requires m'.modifiers == m.modifiers[name := list']
    requires list'.last.Some? ==> list'.last.value in m'.store.items
    requires forall k :: k in Derived(m.modifiers) && Some(k) != OldLast(m.modifiers, name) ==> k in m'.store.items
    ensures DerivedLive(m')
  {
    DerivedAfterSet(m.modifiers, name, list');
    forall k | k in Derived(m.modifiers - {name}) ensures k in m'.store.items {
      var n :| n in m.modifiers - {name} && (m.modifiers - {name})[n].last.Some? && (m.modifiers - {name})[n].last.value == k;
      assert m.modifiers[n].last == Some(k);
    }
  }

  /** While every derived solid is live, a replace never throws. */
  lemma ReplaceItemReturnsWhileDerivedLive(m: Manager, from: Name, to: Item)
    requires Wf(m) && DerivedLive(m) && from in m.version2name
    ensures ModifierManager.ReplaceItem(m, from, to).Returned?
  {
    var name := m.version2name[from];
    if name in m.modifiers && m.modifiers[name].last.Some? {
      var l := m.modifiers[name].last.value;
      assert l in Derived(m.modifiers);
      assert l != from;
    }
  }

  lemma ReplaceItemKeepsDerivedLive(m: Manager, from: Name, to: Item)
    requires Wf(m) && DerivedLive(m) && from in m.version2name
    ensures var r := ModifierManager.ReplaceItem(m, from, to);
      r.Returned? && DerivedLive(r.state)
  {
    ReplaceItemReturnsWhileDerivedLive(m, from, to);
    var r := ModifierManager.ReplaceItem(m, from, to);
    var name := m.version2name[from];
    var (s1, view) := GeometryStore.ReplaceItem(m.store, from, to).value;
    forall k | k in Derived(m.modifiers) && Some(k) != OldLast(m.modifiers, name) ensures k in r.state.store.items {
      assert k != from;
      assert k in s1.items;
    }
    if name in m.modifiers {
      ListChangeKeepsDerivedLive(m, r.state, name, r.state.modifiers[name]);
    } else {
      assert r.state.modifiers == m.modifiers;
    }
  }

  lemma AddKeepsDerivedLive(m: Manager, solid: Name)
    requires Wf(m) && DerivedLive(m) && solid in m.version2name
    ensures DerivedLive(ModifierManager.Add(m, solid))
  {
    var m' := ModifierManager.Add(m, solid);
    var name := m.version2name[solid];
    ListChangeKeepsDerivedLive(m, m', name, m'.modifiers[name]);
  }

  lemma PreviewKeepsDerivedLive(m: Manager, from: Name, to: Item)
    requires Wf(m) && DerivedLive(m) && from in m.version2name
    ensures DerivedLive(ModifierManager.ReplaceTemporaryItem(m, from, to).0)
  {
    var m' := ModifierManager.ReplaceTemporaryItem(m, from, to).0;
    var name := m.version2name[from];
    if name in m.modifiers {
      ListChangeKeepsDerivedLive(m, m', name, m'.modifiers[name]);
    }
  }

  lemma StepPreserves(m: Manager, c: Command)
    requires Wf(m) && Admissible(m, c)
    ensures var r := Step(m, c);
      && (r.Returned? ==> Wf(r.state) && (Tracked(m) && !Readds(m, c) ==> Tracked(r.state)))
      && (DerivedLive(m) && !RemovesDerived(m, c) ==> (r.Returned? || !c.ReplaceItemCmd?) && DerivedLive(r.state))
  {
    match c
    case AddItemCmd(model, agent) => AddItemPreserves(m, model, agent);
    case DuplicateCmd(item) => DuplicatePreserves(m, item);
    case ReplaceItemCmd(from, to) =>
      ReplaceItemPreserves(m, from, to);
      if DerivedLive(m) {
        ReplaceItemKeepsDerivedLive(m, from, to);
      }
    case RemoveItemCmd(view) => RemoveItemPreserves(m, view);
    case AddModifierCmd(solid) =>
      AddPreserves(m, solid);
      if DerivedLive(m) {
        AddKeepsDerivedLive(m, solid);
      }
    case PreviewCmd(from, to) =>
      ReplaceTemporaryItemPreserves(m, from, to);
      if DerivedLive(m) {
        PreviewKeepsDerivedLive(m, from, to);
      }
  }

  /** How a run ended: all commands done, stopped at a command naming an
      unregistered version, or stopped at a command that threw. */
  datatype Ending = Finished | Unregistered(at: Command) | Raised(at: Command, error: StoreError)

  /** The run stopped at a replace that threw after the store had replaced the item. */
  predicate ThrewMidReplace(e: Ending) {
    e.Raised? && e.at.ReplaceItemCmd?
  }

  /** Runs commands in order, stopping at the first that throws, with the
      state that command left behind, or at the first that names an
      unregistered version. */
  function Run(m: Manager, cmds: seq<Command>): (r: (Manager, Ending))
    requires Wf(m)
    decreases |cmds|
  {
    if |cmds| == 0 then (m, Finished)
    else if !Admissible(m, cmds[0]) then (m, Unregistered(cmds[0]))
    else
      StepPreserves(m, cmds[0]);
      match Step(m, cmds[0])
      case Threw(s, e) => (s, Raised(cmds[0], e))
      case Returned(m', _) => Run(m', cmds[1..])
  }

  /** No command of the run attaches a second list over a live derived solid
      or deletes a derived solid. */
  predicate Calm(m: Manager, cmds: seq<Command>)
    requires Wf(m)
    decreases |cmds|
  {
    || |cmds| == 0
    || !Admissible(m, cmds[0])
    || (&& !Readds(m, cmds[0])
        && !RemovesDerived(m, cmds[0])
        && (StepPreserves(m, cmds[0]);
            match Step(m, cmds[0])
            case Threw(_, _) => true
            case Returned(m', _) => Calm(m', cmds[1..])))
  }

  /** A run keeps the manager well formed unless it stops at a replace that
      threw midway. A calm run from a state whose derived solids are live
      never does, keeps them live, and keeps every live item tracked. */
  lemma {:induction false} RunPreserves(m: Manager, cmds: seq<Command>)
    requires Wf(m)
    ensures var (m', ending) := Run(m, cmds);
      && (Wf(m') || ThrewMidReplace(ending))
      && (DerivedLive(m) && Calm(m, cmds) ==> Wf(m') && DerivedLive(m') && !ThrewMidReplace(ending))
      && (DerivedLive(m) && Calm(m, cmds) && Tracked(m) ==> Tracked(m'))
    decreases |cmds|
  {
    if |cmds| > 0 && Admissible(m, cmds[0]) {
      StepPreserves(m, cmds[0]);
      var r := Step(m, cmds[0]);
      if r.Returned? {
        RunPreserves(r.state, cmds[1..]);
      }
    }
  }

  /** From an empty manager, after a calm run, no replace has thrown and the
      registered versions are exactly the live items other than derived solids. */
  lemma RegisteredVersionsAfterRun(cmds: seq<Command>)
    requires Calm(Initial, cmds)
    ensures var (m, ending) := Run(Initial, cmds);
      && !ThrewMidReplace(ending)
      && m.version2name.Keys == m.store.items.Keys - Derived(m.modifiers)
  {
    InitialIsWf();
    assert DerivedLive(Initial);
    RunPreserves(Initial, cmds);
    RegisteredAreLiveNonDerived(Run(Initial, cmds).0);
  }

  /** The commands of the run below: add version 0, attach a list to it
      (derived solid 1), delete 1, then replace 0. */
  const BreakingRun := [AddItemCmd(Shape(0), User), AddModifierCmd(0), RemoveItemCmd(1), ReplaceItemCmd(0, Shape(7))]

  /** The states after the first, second and third commands of `BreakingRun`. */
  const Added := Manager(Store(map[0 := Entry(Shape(0), User)], {}, [], 1, map[], map[]), map[], map[0 := 0])

  const Modified := Manager(
    Store(map[0 := Entry(Shape(0), User), 1 := Entry(Symmetrized(Shape(0)), Automatic)], {}, [], 2, map[1 := 0], map[0 := 1]),
    map[0 := ModifierList(Some(1), None)],
    map[0 := 0])

  const DerivedRemoved := Manager(
    Store(map[0 := Entry(Shape(0), User)], {}, [], 2, map[1 := 0], map[0 := 1]),
    map[0 := ModifierList(Some(1), None)],
    map[0 := 0])

  lemma BreakingRunFirst()
    ensures Wf(Added) && Step(Initial, BreakingRun[0]) == Returned(Added, ())
  {
    InitialIsWf();
    StepPreserves(Initial, BreakingRun[0]);
  }

  lemma BreakingRunSecond()
    ensures Wf(Added) && Step(Added, BreakingRun[1]) == Returned(Modified, ())
  {
    BreakingRunFirst();
    var m := ModifierManager.Add(Added, 0);
    assert m.store == Modified.store;
  }

  lemma BreakingRunThird()
    ensures Wf(Modified) && Step(Modified, BreakingRun[2]) == Returned(DerivedRemoved, ())
  {
    BreakingRunSecond();
    StepPreserves(Added, BreakingRun[1]);
    assert Wf(Modified);
    assert 1 in Modified.store.items;
    var r := ModifierManager.RemoveItem(Modified, 1);
    assert r.store.items == DerivedRemoved.store.items;
    assert r.version2name == DerivedRemoved.version2name;
    assert r == DerivedRemoved;
  }

  lemma BreakingRunPrefix()
    ensures Wf(DerivedRemoved)
    ensures Run(Initial, BreakingRun) == Run(DerivedRemoved, BreakingRun[3..])
  {
    InitialIsWf();
    BreakingRunFirst();
    BreakingRunSecond();
    BreakingRunThird();
    StepPreserves(Modified, BreakingRun[2]);
    assert BreakingRun[1..][1..] == BreakingRun[2..] && BreakingRun[2..][1..] == BreakingRun[3..];
    assert Run(Initial, BreakingRun) == Run(Added, BreakingRun[1..]);
    assert Run(Added, BreakingRun[1..]) == Run(Modified, BreakingRun[2..]);
    assert Run(Modified, BreakingRun[2..]) == Run(DerivedRemoved, BreakingRun[3..]);
  }

  /** Deleting a derived solid and then replacing its base breaks the manager:
      the replace throws midway, version 0 stays registered though it is dead,
      and its replacement, version 2, is live but unregistered. */
  lemma RemovedDerivedThenReplaceBreaksRun()
    ensures var (m, ending) := Run(Initial, BreakingRun);
      && ending == Raised(ReplaceItemCmd(0, Shape(7)), StaleReference(1))
      && 0 in m.version2name && 0 !in m.store.items
      && 2 in m.store.items && 2 !in m.version2name
      && !Wf(m)
  {
    BreakingRunPrefix();
    var c := ReplaceItemCmd(0, Shape(7));
    assert BreakingRun[3..] == [c];
    var s1 := GeometryStore.ReplaceItem(DerivedRemoved.store, 0, Shape(7)).value.0;
    assert s1.items == map[2 := Entry(Shape(7), User)];
    assert Step(DerivedRemoved, c) == Threw(DerivedRemoved.(store := s1), StaleReference(1));
  }
}

=== FILE: modifier_manager.dfy ===
/** The modifier layer that sits in front of the geometry database.

    A logical name is the version name an item had when it was first added;
    `version2name` maps each current version back to it, and `modifiers`
    holds at most one modifier list per logical name. Each asynchronous
    method is one sequential state transition: every `await` is an ordinary
    step. */
module ModifierManager {
  import opened Results
  import opened GeometryStore

  /** `last` is the committed derived solid, `temp` the live preview. */
  datatype ModifierList = ModifierList(last: Option<Name>, temp: Option<TempId>)

  const FreshList := ModifierList(None, None)

  datatype Manager = Manager(store: Store, modifiers: map<Name, ModifierList>, version2name: map<Name, Name>)

  /** Every temporary handle a list holds names an existing temporary object. */
  predicate TempValid(s: Store, list: ModifierList) {
    list.temp.Some? ==> list.temp.value < |s.temps|
  }

  /** Recomputes the derived solid from `underlying` and links it to the base view.
      The first call adds the derived solid as an automatic item; later calls
      replace it, which fails if the previous derived solid is no longer live. */
  function Update(s: Store, list: ModifierList, underlying: Item, view: Name): (r: Result<(Store, ModifierList), StoreError>)
    ensures r.Failure? <==> list.last.Some? && list.last.value !in s.items
    ensures r.Success? ==> var (s', list') := r.value;
      && list'.last.Some? && list'.temp == list.temp
      && var d := list'.last.value;
      && d in s'.items && s'.items[d].model == Symmetrized(underlying)
      && d >= s.next && s'.next == d + 1 && (Valid(s) ==> d !in s.items && Valid(s'))
      && s'.baseOf == s.baseOf[d := view] && s'.derivedOf == s.derivedOf[view := d]
      && s'.temps == s.temps && s'.hidden == s.hidden
      && (list.last.None? ==> s'.items == s.items[d := Entry(Symmetrized(underlying), Automatic)])
      && (list.last.Some? ==>
            && s'.items == (s.items - {list.last.value})[d := Entry(Symmetrized(underlying), s.items[list.last.value].agent)]
            && (Valid(s) ==> |s'.items| == |s.items|))
  {
    var symmetrized := Symmetrized(underlying);
    var modified :=
      if list.last.Some? then GeometryStore.ReplaceItem(s, list.last.value, symmetrized)
      else Success(GeometryStore.AddItem(s, symmetrized, Automatic));
    match modified
    case Failure(e) => Failure(e)
    case Success((s1, d)) =>
      assert list.last.Some? && Valid(s) ==> |s1.items| == |s.items| by {
        if list.last.Some? && Valid(s) {
          var l := list.last.value;
          assert d !in s.items - {l};
          assert |s.items - {l}| == |s.items| - 1;
        }
      }
      Success((Link(s1, d, view), list.(last := Some(d))))
  }

  /** The preview path: hides the base, publishes a fresh temporary derived
      object, cancels the previous preview of this list and shows the new one. */
  function Tempf(s: Store, list: ModifierList, from: Name, underlying: Item): (r: (Store, ModifierList, TempId))
    requires TempValid(s, list)
    ensures var (s', list', t) := r;
      && from in s'.hidden && s'.hidden == s.hidden + {from}
      && s'.items == s.items && s'.next == s.next
      && s'.baseOf == s.baseOf && s'.derivedOf == s.derivedOf
      && list' == list.(temp := Some(t))
      && t == |s.temps| && |s'.temps| == |s.temps| + 1
      && s'.temps[t] == Temp(Symmetrized(underlying), list.last, Preview, true, false)
      && (list.temp.Some? ==> s'.temps[list.temp.value].cancelled && !s'.temps[list.temp.value].visible)
      && (forall u :: 0 <= u < |s.temps| && Some(u) != list.temp ==> s'.temps[u] == s.temps[u])
  {
    var s1 := GeometryStore.Hide(s, from);
    var symmetrized := Symmetrized(underlying);
    var (s2, t) :=
      if list.last.Some? then GeometryStore.ReplaceTemporaryItem(s1, list.last.value, symmetrized)
      else GeometryStore.AddTemporaryItem(s1, symmetrized);
    var s3 := if list.temp.Some? then Cancel(s2, list.temp.value) else s2;
    (Show(s3, t), list.(temp := Some(t)), t)
  }

  /** Every handle held by some modifier list is valid; every logical name,
      registry key and derived name was issued by the store; no two lists
      share a derived solid; and the registered versions are live, non-derived items. */
  predicate Wf(m: Manager) {
    && Valid(m.store)
    && (forall n :: n in m.modifiers ==> TempValid(m.store, m.modifiers[n]))
    && (forall n :: n in m.modifiers ==> n < m.store.next)
    && (forall k :: k in m.version2name ==> m.version2name[k] < m.store.next)
    && (forall n :: n in m.modifiers && m.modifiers[n].last.Some? ==> m.modifiers[n].last.value < m.store.next)
    && (forall n1, n2 :: n1 in m.modifiers && n2 in m.modifiers && n1 != n2 && m.modifiers[n1].last.Some? ==>
          m.modifiers[n1].last != m.modifiers[n2].last)
    && m.version2name.Keys <= m.store.items.Keys
    && m.version2name.Keys !! Derived(m.modifiers)
  }

  /** The derived solids the modifier lists currently point at. */
  function Derived(mods: map<Name, ModifierList>): set<Name> {
    set n | n in mods && mods[n].last.Some? :: mods[n].last.value
  }

  /** Attaches a fresh modifier list to `solid`'s logical name (dropping any
      previous one) and computes its first derived solid. */
  function Add(m: Manager, solid: Name): (r: Manager)
    requires Wf(m) && solid in m.version2name
    ensures var name := m.version2name[solid];
      && name in r.modifiers && r.modifiers == m.modifiers[name := r.modifiers[name]]
      && r.version2name == m.version2name
      && var list := r.modifiers[name];
      && list.temp.None? && list.last.Some?
      && var d := list.last.value;
      && d !in m.store.items
      && r.store.items == m.store.items[d := Entry(Symmetrized(m.store.items[solid].model), Automatic)]
      && r.store.baseOf == m.store.baseOf[d := solid] && r.store.derivedOf == m.store.derivedOf[solid := d]
      && r.store.temps == m.store.temps && r.store.hidden == m.store.hidden
  {
    var name := m.version2name[solid];
    var modifiers := m.modifiers[name := FreshList];
    var updated := Update(m.store, FreshList, m.store.items[solid].model, solid);
    var (s', list') := updated.value;
    Manager(s', modifiers[name := list'], m.version2name)
  }

  /** Adds an item through the store and registers it as its own logical name. */
  function AddItem(m: Manager, model: Item, agent: Agent): (r: (Manager, Name))
    ensures var (m', n) := r;
      && (Valid(m.store) ==> n !in m.store.items)
      && (Wf(m) ==> n !in m.version2name && n !in m'.modifiers)
      && m'.version2name == m.version2name[n := n]
      && m'.store.items == m.store.items[n := Entry(model, agent)]
      && m'.modifiers == m.modifiers
  {
    var (s', n) := GeometryStore.AddItem(m.store, model, agent);
    (m.(store := s', version2name := m.version2name[n := n]), n)
  }

  /** Duplicates an item through the store; the copy is its own logical name
      and inherits no modifier list. */
  function Duplicate(m: Manager, item: Name): (r: Result<(Manager, Name), StoreError>)
    ensures r.Failure? <==> item !in m.store.items
    ensures r.Failure? ==> r.error == StaleReference(item)
    ensures r.Success? ==> var (m', n) := r.value;
      && (Valid(m.store) ==> n !in m.store.items)
      && (Wf(m) ==> n !in m.version2name && n !in m'.modifiers)
      && m'.version2name == m.version2name[n := n]
      && m'.store.items == m.store.items[n := m.store.items[item]]
      && m'.modifiers == m.modifiers
  {
    match GeometryStore.Duplicate(m.store, item)
    case Failure(e) => Failure(e)
    case Success((s', n)) => Success((m.(store := s', version2name := m.version2name[n := n]), n))
  }

  /** Replaces `from` by `to`, keeping its logical name. The modifier list of
      that name, if any, recomputes its derived solid from `to` before the
      version map is re-keyed; if that recomputation throws, the store replace
      has already happened and the version map is left as it was. */
  function ReplaceItem(m: Manager, from: Name, to: Item): (r: Outcome<Manager, Name, StoreError>)
    requires Wf(m) && from in m.version2name
    ensures var name := m.version2name[from];
      var replaced := GeometryStore.ReplaceItem(m.store, from, to);
      && replaced.Success?
      && var (s1, view) := replaced.value;
      && (r.Threw? <==> name in m.modifiers && m.modifiers[name].last.Some? && m.modifiers[name].last.value !in s1.items)
      && (r.Threw? ==> r.state == m.(store := s1))
      && (r.Returned? ==>
            && r.value == view && view !in m.store.items && view !in m.version2name
            && from !in r.state.store.items && view in r.state.store.items
            && r.state.store.temps == m.store.temps && r.state.store.hidden == m.store.hidden
            && r.state.version2name == (m.version2name - {from})[view := name]
            && r.state.version2name[view] == name
            && |r.state.version2name| == |m.version2name|
            && r.state.modifiers.Keys == m.modifiers.Keys
            && (name !in m.modifiers ==> r.state.store == s1 && r.state.modifiers == m.modifiers)
            && (name in m.modifiers ==>
                  var d := r.state.modifiers[name].last;
                  && d.Some? && d.value !in s1.items
                  && d.value in r.state.store.items
                  && r.state.store.items[d.value].model == Symmetrized(to)
                  && r.state.store.baseOf == s1.baseOf[d.value := view]
                  && r.state.store.derivedOf == s1.derivedOf[view := d.value]
                  && var old_last := m.modifiers[name].last;
                  && r.state.store.items ==
                       (if old_last.Some? then s1.items - {old_last.value} else s1.items)[d.value :=
                         Entry(Symmetrized(to), if old_last.Some? then s1.items[old_last.value].agent else Automatic)]
                  && r.state.modifiers == m.modifiers[name := m.modifiers[name].(last := d)]))
  {
    var name := m.version2name[from];
    var replaced := GeometryStore.ReplaceItem(m.store, from, to);
    var (s1, view) := replaced.value;
    var version2name := (m.version2name - {from})[view := name];
    assert |version2name| == |m.version2name| by {
      assert view !in m.version2name - {from};
      assert |m.version2name.Keys - {from}| == |m.version2name.Keys| - 1;
      assert (m.version2name - {from}).Keys == m.version2name.Keys - {from};
    }
    if name in m.modifiers then
      match Update(s1, m.modifiers[name], to, view)
      case Failure(e) => Threw(m.(store := s1), e)
      case Success((s2, list')) => Returned(Manager(s2, m.modifiers[name := list'], version2name), view)
    else
      Returned(m.(store := s1, version2name := version2name), view)
  }

  /** Removes an item through the store and forgets its version; the modifier
      lists are left alone. The store removal is not awaited, so a stale
      reference is never reported to the caller: the store is left as it was
      and the version is forgotten all the same. */
  function RemoveItem(m: Manager, view: Name): (r: Manager)
    ensures r.version2name == m.version2name - {view}
    ensures view !in r.version2name && view !in r.store.items
    ensures r.store.items == m.store.items - {view}
    ensures view in m.store.items ==> r.store == m.store.(items := m.store.items - {view})
    ensures view !in m.store.items ==> r.store == m.store
    ensures r.modifiers == m.modifiers
  {
    var s' := match GeometryStore.RemoveItem(m.store, view)
      case Failure(_) => m.store
      case Success(s') => s';
    m.(store := s', version2name := m.version2name - {view})
  }

  /** Routes a preview of `from` to its modifier list when its logical name
      has one, and to the store otherwise. */
  function ReplaceTemporaryItem(m: Manager, from: Name, to: Item): (r: (Manager, TempId))
    requires Wf(m) && from in m.version2name
    ensures var (m', t) := r;
      var name := m.version2name[from];
      && t == |m.store.temps| && |m'.store.temps| == |m.store.temps| + 1
      && m'.store.items == m.store.items && m'.version2name == m.version2name
      && m'.modifiers.Keys == m.modifiers.Keys
      && (m'.store.temps[t].model == Symmetrized(to) <==> name in m.modifiers)
      && (name in m.modifiers ==> (m'.store, m'.modifiers[name], t) == Tempf(m.store, m.modifiers[name], from, to))
      && (name !in m.modifiers ==> (m'.store, t) == GeometryStore.ReplaceTemporaryItem(m.store, from, to))
      && (name in m.modifiers ==>
            && from in m'.store.hidden && m'.store.temps[t].visible
            && m'.modifiers == m.modifiers[name := m.modifiers[name].(temp := Some(t))])
      && (name !in m.modifiers ==>
            && m'.modifiers == m.modifiers
            && m'.store.temps == m.store.temps + [Temp(to, Some(from), Preview, false, false)])
  {
    var name := m.version2name[from];
    if name in m.modifiers then
      var (s', list', t) := Tempf(m.store, m.modifiers[name], from, to);
      (m.(store := s', modifiers := m.modifiers[name := list']), t)
    else
      var (s', t) := GeometryStore.ReplaceTemporaryItem(m.store, from, to);
      (m.(store := s'), t)
  }

  function Lookup(m: Manager, solid: Name): (r: Result<Item, StoreError>)
    ensures r.Success? <==> solid in m.store.items
    ensures r.Success? ==> r.value == m.store.items[solid].model
  {
    GeometryStore.Lookup(m.store, solid)
  }

  function AddTemporaryItem(m: Manager, model: Item): (r: (Manager, TempId))
    ensures r.1 == |m.store.temps|
    ensures r.0 == m.(store := m.store.(temps := m.store.temps + [Temp(model, None, Preview, false, false)]))
  {
    var (s', t) := GeometryStore.AddTemporaryItem(m.store, model);
    (m.(store := s'), t)
  }

  function AddPhantom(m: Manager, model: Item): (r: (Manager, TempId))
    ensures r.1 == |m.store.temps|
    ensures r.0 == m.(store := m.store.(temps := m.store.temps + [Temp(model, None, Phantom, false, false)]))
  {
    var (s', t) := GeometryStore.AddPhantom(m.store, model);
    (m.(store := s'), t)
  }

  function Hide(m: Manager, item: Name): (r: Manager)
    ensures r == m.(store := m.store.(hidden := m.store.hidden + {item}))
    ensures item in r.store.hidden
  {
    m.(store := GeometryStore.Hide(m.store, item))
  }

  function Unhide(m: Manager, item: Name): (r: Manager)
    ensures r == m.(store := m.store.(hidden := m.store.hidden - {item}))
    ensures item !in r.store.hidden
  {
    m.(store := GeometryStore.Unhide(m.store, item))
  }
}

=== FILE: results.dfy ===
/** Failure-carrying values shared by the editor model.

- Option<T>: a value that may be absent (a JavaScript `undefined`).
- Result<T, E>: an operation that either returns a value or throws before
  changing anything.
- Outcome<S, T, E>: an operation over a state S that may throw part-way;
  both cases carry the state reached, so partial mutation stays visible.
 */
module Results {

  datatype Option<+T> = None | Some(value: T)

  datatype Result<+T, +E> = Success(value: T) | Failure(error: E)

  datatype Outcome<+S, +T, +E> = Returned(state: S, value: T) | Threw(state: S, error: E)
}
